=== FILE: README.md ===
# Propeller blade parametrization, modelled in Dafny

This project models the `Propeller` class of `src/Parametrization/propeller.py`.
The class builds a blade description from a diameter, a requested number of
sections and radial distributions of chord, twist, sweep and height (`zhigh`),
each given on its own array of native radial stations.
The constructor (`__init__`) accepts the stations in one of two shapes:

- a Python list of exactly five station arrays, unpacked in the order chord,
  twist, thickness, sweep, zhigh;
- a single station array that every distribution shares.

Either way it calls `parametrize`. That function lays `n_sections + 1` evenly
spaced points from the smallest to the largest chord station. It resamples
every supplied distribution at those points with SciPy's
`PchipInterpolator`, extrapolating outside the native range. It then drops
the tip point from the grid and from every resampled array.

The two branches differ afterwards:

- The list branch keeps the grid as `r_station_p_m` and stores
  `xi = grid / max(chord stations)`.
- The shared branch stores the dimensional grid itself in `xi` and sets
  `r_station_m = xi * D/2`.

Module layout:

| file | module | contents |
|---|---|---|
| `wrappers.dfy` | `Wrappers` | `Option` and `Result` with early return (`:-`) |
| `realseqs.dfy` | `RealSeqs` | the NumPy reductions and element-wise operations the class uses: `np.min`, `np.max`, `np.delete(a, -1)`, division and scaling by a scalar |
| `radial_grid.dfy` | `RadialGrid` | `np.linspace` and the common grid with its tip point dropped |
| `pchip.dfy` | `Pchip` | the interpolator over the reals: input validation, node slopes (SciPy's Fritsch–Butland harmonic-mean interior rule and clipped three-point edge rule), Hermite cubic pieces and piece selection with extrapolation; proof that it passes through its nodes |
| `pchip_envelope.dfy` | `PchipEnvelope` | proof that between two neighbouring nodes the interpolant stays between the two node values |
| `pchip_linear.dfy` | `PchipLinear` | proof that data on a straight line is reproduced exactly, extrapolation included |
| `propeller.dfy` | `Propeller` | the data model, the input-shape dispatch, `parametrize` and both constructor branches; every exception the constructor raises on the modelled inputs is a `Failure` value |
| `propeller_properties.dfy` | `PropellerProperties` | properties that relate several calls, plus a worked example |

The interpolator is modelled from the algorithm SciPy implements
(`_find_derivatives` / `_edge_case` of `PchipInterpolator`, then
`CubicHermiteSpline` and `PPoly` evaluation). It is not modelled from
`propeller.py`. So its rows below cite only the call site in `propeller.py`.

## Model

| member | source | states |
|---|---|---|
| RealSeqs.Min | src/Parametrization/propeller.py:63 | `np.min` of a non-empty station array is one of its elements and no element is smaller |
| RealSeqs.Max | src/Parametrization/propeller.py:63 | `np.max` of a non-empty station array is one of its elements and no element is larger |
| RealSeqs.DropLast | src/Parametrization/propeller.py:103 | `np.delete(a, -1)` keeps the first `len(a) - 1` elements in place; appending the dropped last element restores `a` |
| RealSeqs.Divide | src/Parametrization/propeller.py:66 | dividing an array by a non-zero scalar keeps its length; each quotient times the scalar gives back the original element |
| RealSeqs.Scale | src/Parametrization/propeller.py:74 | multiplying an array by a scalar keeps its length and scales each element; dividing by a non-zero factor undoes it |
| RadialGrid.Linspace | src/Parametrization/propeller.py:98 | `np.linspace(hub, tip, num)` has `num` points; it starts at hub, ends at tip, and consecutive points differ by `(tip - hub)/(num - 1)` |
| RadialGrid.CommonGrid | src/Parametrization/propeller.py:98-121 | the grid after dropping the tip point has `DoF` points and starts at the hub; consecutive points differ by `(tip - hub)/DoF`; for hub < tip it is strictly increasing, and every point lies in `[hub, tip)` |
| RadialGrid.CommonGridPosition | src/Parametrization/propeller.py:98 | grid point `i` lies `i` steps of `(tip - hub)/DoF` past the hub |
| Pchip.Interpolate | src/Parametrization/propeller.py:101-102 | building the interpolator succeeds exactly when there are at least two stations, the values match the stations in length, and the stations strictly increase; it names which of these failed; on success the result has one value per query point, and each value is the interpolant at that point |
| Pchip.Piece | src/Parametrization/propeller.py:102 | the cubic piece used at `x` is the last interval whose left station is at most `x`; points below the first station use the first piece and points past the last station use the last piece (extrapolation) |
| Pchip.NodeReproduction | src/Parametrization/propeller.py:101-102 | the interpolant evaluated at a native station returns that station's native value |
| PchipEnvelope.SlopesAdmissible | src/Parametrization/propeller.py:101 | every node slope has the sign of each adjacent secant, is at most three times it, and is zero next to a flat segment |
| PchipLinear.LinearDataReproduced | src/Parametrization/propeller.py:101-102 | data on a straight line `a + b*x` is reproduced exactly at every point, and extrapolation continues the same line |
| PchipEnvelope.NoOvershoot | src/Parametrization/propeller.py:101-102 | between two neighbouring stations the interpolant never leaves the range of the two native values |
| Propeller.Dispatch | src/Parametrization/propeller.py:59-71 | a list of exactly five arrays is unpacked, and packing the five again gives back the list; a single array is shared; a list of another length and a missing argument are errors |
| Propeller.Resample | src/Parametrization/propeller.py:101-103 | resampling one distribution succeeds exactly when the interpolator accepts the data and the grid is non-empty; an interpolator error is tagged with the distribution; each output value is the interpolant at the matching grid point with the tip point dropped |
| Propeller.ResampleRequired | src/Parametrization/propeller.py:101-107 | chord and twist values left as None are an error; otherwise as `Resample` |
| Propeller.ResampleOptional | src/Parametrization/propeller.py:109-119 | sweep or zhigh left as None stays None and never fails; a supplied array is resampled as `Resample` |
| Propeller.ResampleAll | src/Parametrization/propeller.py:100-121 | all present distributions resampled on one grid: success exactly when every one is resamplable and the grid is non-empty; outputs are index-aligned with the grid minus its tip point; sweep/zhigh are present exactly when supplied |
| Propeller.Parametrize | src/Parametrization/propeller.py:77-123 | `DoF < -1` fails in linspace; `DoF = -1` fails dropping from the empty grid; a method other than 'PCHIP' fails; success exactly when `DoF >= 0`, the method is 'PCHIP' and the distributions are resamplable; the grid is the common grid from hub to tip, and chord, twist, sweep and zhigh are index-aligned with it |
| Propeller.ConstructFromList | src/Parametrization/propeller.py:59-66 | list branch: succeeds exactly when the chord stations are non-empty, a non-negative section count is given, every distribution is resamplable and either the largest chord station is non-zero or there are zero sections; empty chord stations, a missing count and a zero largest station with sections to divide fail with their own errors; the grid spans the chord stations' min to max, `r_station_p_m` is that grid, `xi` has one entry per section and, for a non-zero largest station, is the grid divided by it; `r_station_m` stays None, and the distributions are `parametrize`'s |
| Propeller.Normalise | src/Parametrization/propeller.py:66 | `r_station_p_m / max(station_chord_m)`: the result has the grid's length and each entry times the reference gives back the grid point; an empty grid divides by any reference; a non-empty grid divided by zero gives `ZeroReference`, which stands for NumPy's all −inf result (NumPy does not raise) |
| Propeller.ConstructShared | src/Parametrization/propeller.py:68-74 | shared branch: succeeds exactly when the array is non-empty, a non-negative section count is given and every distribution is resamplable on it; all five station arrays are the shared array, `xi` is the dimensional grid itself, `r_station_m` is `xi * D/2`, `r_station_p_m` is never assigned (recorded as None), and the distributions are `parametrize`'s |
| Propeller.Construct | src/Parametrization/propeller.py:19-98 | the constructor dispatches once on the station shape and runs the matching branch; a missing station argument fails on a missing section count first, then on a count below -1, and only then as missing stations; a successful result stores stations that pack back to the argument given |
| PropellerProperties.ExactAtNativeStation | src/Parametrization/propeller.py:98-121 | for resamplable distributions, `parametrize` succeeds, and for each supplied distribution (chord, twist, sweep or zhigh), where a grid point coincides with one of its native stations, the resampled value there equals the native value |
| PropellerProperties.WithinNeighbours | src/Parametrization/propeller.py:98-121 | for resamplable distributions, `parametrize` succeeds, and for each supplied distribution a resampled value at a grid point between two neighbouring native stations lies between their native values |
| PropellerProperties.AbsentOptionalsPropagate | src/Parametrization/propeller.py:109-119 | with valid chord and twist and no sweep or zhigh, `parametrize` succeeds, returns no sweep and no zhigh, and gives `DoF` chord values |
| PropellerProperties.ListXiBelowOne | src/Parametrization/propeller.py:63-66 | in the list branch, with resamplable distributions and non-negative chord stations spanning a non-empty range, construction succeeds and every `xi` lies in `[0, 1)` |
| PropellerProperties.SharedVersusFiveCopies | src/Parametrization/propeller.py:59-74 | when the largest station is non-zero, a shared array and a list of five copies of it succeed together and give the same grid and distributions; but `xi` differs: the shared `xi` is the list's `r_station_p_m`, and the list's `xi` is that divided by the largest station |
| PropellerProperties.ThicknessIgnoredByParametrize | src/Parametrization/propeller.py:100-121 | the thickness stations have no influence on `parametrize` |
| PropellerProperties.ThicknessIgnored | src/Parametrization/propeller.py:59-66 | changing the thickness stations changes only the stored thickness stations of the constructed propeller |
| PropellerProperties.DispatchPackRoundTrip | src/Parametrization/propeller.py:59-60 | unpacking a list of five and packing it again is the identity |
| PropellerProperties.SingletonListRejected | src/Parametrization/propeller.py:26-27 | the one-element list `[station_dist]` that the constructor's documentation offers for a shared station array is rejected as `InvalidStationShape` |
| PropellerProperties.ListOfFiveUnpacked | src/Parametrization/propeller.py:59-66 | constructing from a list of five is the list branch on its members |
| PropellerProperties.WorkedExample | src/Parametrization/propeller.py:59-66 | example: chord stations 0, 5, 10 m with chord 0.1, 0.2, 0.15 m and two sections give the grid 0, 5 m, the chord 0.1, 0.2 m and `xi` 0, 0.5; twist given only on 2, 6, 10 m is extrapolated to the hub without error |
| PropellerProperties.NoSections | src/Parametrization/propeller.py:98-121 | zero sections give empty arrays; `n_sections = -1` fails when the tip point is dropped from the empty grid |

## Left out

- `src/QPROP_wrapper/qprop_wrapper.py` is outside this model. It only launches the QPROP executable in a subprocess and reads nothing from the class.
- `test_cases/write_simple_file/write_test.py` is outside this model. It is a driver script. At write_test.py:67 it calls `QPROP_wrapper.write_simple_prop_file`, but the `QPROP_wrapper` class (qprop_wrapper.py:4-68) has no such method. It also passes keywords (`code`, `N_blades`, `mode`, `edge_factor`) that `Propeller.__init__` does not accept.
- The `matplotlib` and `pandas` imports are not modelled. A pandas column passed as the shared station array is modelled as a plain array of reals.
- Floating-point rounding is not modelled: arithmetic is over the mathematical reals. In particular, the last `np.linspace` point is modelled as exactly the tip, which NumPy also forces.
- Interpolation is restricted to what the class uses: one-dimensional values, `extrapolate=True`, evaluation of the function value only (no derivatives or integrals). SciPy's rejection of non-finite inputs is not modelled.
- The inputs the constructor stores as attributes (`self.radial_dist_m`, `self.chord_dist_m` and the others) have no fields of their own. The distributions are kept in `Propeller.inputs` and the unpacked stations in `Propeller.stations`. `parametrize` and the shared branch read the stored attributes back (propeller.py:73, 101), and the model passes the same values directly.
- Propeller.Dispatch: a list of station arrays whose length is not five is rejected at once as `InvalidStationShape`. The source instead sends it to the shared branch, where `np.min` or the interpolator rejects it (the interpolator wants one-dimensional stations). The outcome is an error either way, but the error raised differs. A list of plain numbers whose length is not five is a one-dimensional array to NumPy and is modelled as `StationArray`. A list of exactly five plain numbers is not modelled.
- Propeller.Normalise, Propeller.ConstructFromList: when the largest chord station is zero and at least one section is requested, the model returns `Failure(ZeroReference)`. NumPy divides by zero without raising. Every grid point is then negative, because `parametrize` only succeeded on strictly increasing stations ending at 0, so `xi` is all −inf. With zero sections the empty grid divides to an empty `xi`, and the model succeeds there too.
- Propeller.Construct: when several inputs are wrong at once, the model reports the first failure in the source's evaluation order, including a None station argument, which fails on the section count first. It does not model which of SciPy's own input checks comes first inside one interpolator call; it checks the number of stations, then lengths, then monotonicity.
- Propeller.ConstructShared: in the source the shared branch never assigns `r_station_p_m`, so the attribute does not exist on such a propeller and reading it raises `AttributeError`. The model has no missing attributes and records it as None.
- `n_sections` is an integer in the model. A non-integer count, which `np.linspace` rejects, is not modelled.

## Behaviour worth knowing

- The shared branch and a list of five copies of the same array produce the same grid and the same distributions, but not the same `xi`. The shared branch stores the dimensional grid in `xi`, while the list branch normalises by the largest chord station (`PropellerProperties.SharedVersusFiveCopies`).
- The constructor's documentation (propeller.py:26-27) offers `[station_dist]` for a station array shared by every distribution, but the code rejects that form. A one-element list is not a list of five, so it goes to the shared branch. There `np.min` accepts it, but the interpolator receives two-dimensional stations and raises. Only a bare array reaches the shared branch successfully (`PropellerProperties.SingletonListRejected`).
- A tuple of five station arrays is not unpacked, because the constructor tests `isinstance(radial_dist_m, list)` (propeller.py:59). It goes to the shared branch and fails there, as `[station_dist]` does. The model has no tuple shape; a tuple counts as a list whose length is not five.
- `n_sections = 0` is accepted and yields empty arrays (`PropellerProperties.NoSections`).
- Extrapolation continues the end cubic piece of the interpolant. It is not a straight-line extension of the boundary slope.
- The common grid always runs over the chord stations, even for the twist, sweep and zhigh distributions, whose own stations may cover less. Those are extrapolated.

=== FILE: pchip.dfy ===
/** The shape-preserving piecewise cubic Hermite interpolant (PCHIP) that
    `Propeller.parametrize` builds with SciPy's `PchipInterpolator(x, y,
    extrapolate=True)` and evaluates on the radial grid. At interior nodes
    the slope is the weighted harmonic mean of the neighbouring secants, with
    weights `2*h1 + h0` and `h1 + 2*h0` (Fritsch & Butland, "A Method for
    Constructing Local Monotone Piecewise Cubic Interpolants", SIAM J. Sci.
    Stat. Comput., 1984), and zero at a local extremum or next to a flat
    segment; at the two end nodes it is a clipped one-sided three-point
    estimate; two nodes give the straight line. The region of admissible
    slopes these rules stay in (at most three times the secant, proved in
    `PchipEnvelope`) is that of Fritsch & Carlson, "Monotone Piecewise Cubic
    Interpolation" (SIAM J. Numer. Anal., 1980). Evaluation picks the cubic
    piece of the interval holding the point and extends the first and last
    pieces beyond the data. Everything is exact real arithmetic. */
module Pchip {
  import opened Wrappers

  /** Why the interpolator refuses its data. */
  datatype InterpError = TooFewPoints | LengthMismatch | NotStrictlyIncreasing

  /** Each station lies strictly beyond its predecessor (all steps positive). */
  predicate StepsIncrease(xs: seq<real>) {
    forall i :: 0 <= i < |xs| - 1 ==> xs[i] < xs[i + 1]
  }

  /** Strict increase between any two stations. */
  ghost predicate Increasing(xs: seq<real>) {
    forall i, j :: 0 <= i < j < |xs| ==> xs[i] < xs[j]
  }

  /** The data the interpolator accepts: at least two stations, one value per
      station, stations strictly increasing. */
  predicate Valid(xs: seq<real>, ys: seq<real>) {
    |xs| >= 2 && |ys| == |xs| && StepsIncrease(xs)
  }

  lemma {:induction false} StepsChain(xs: seq<real>, i: nat, j: nat)
    requires StepsIncrease(xs)
    requires i < j < |xs|
    ensures xs[i] < xs[j]
    decreases j - i
  {
    if i + 1 < j {
      StepsChain(xs, i + 1, j);
    }
  }

  /** Positive steps make the whole station sequence strictly increasing. */
  lemma StepsIncreaseIsIncreasing(xs: seq<real>)
    requires StepsIncrease(xs)
    ensures Increasing(xs)
  {
    forall i, j | 0 <= i < j < |xs|
      ensures xs[i] < xs[j]
    {
      StepsChain(xs, i, j);
    }
  }

  /** Width of interval `k`. */
  function Width(xs: seq<real>, k: nat): real
    requires k < |xs| - 1
  {
    xs[k + 1] - xs[k]
  }

  /** Secant slope of the data over interval `k`. */
  function Secant(xs: seq<real>, ys: seq<real>, k: nat): real
    requires Valid(xs, ys) && k < |xs| - 1
  {
    (ys[k + 1] - ys[k]) / Width(xs, k)
  }

  function Sign(v: real): int {
    if v > 0.0 then 1 else if v < 0.0 then -1 else 0
  }

  function Abs(v: real): real {
    if v < 0.0 then -v else v
  }

  /** Slope at an interior node between an interval of width `h0` and secant
      `m0` and the next one of width `h1` and secant `m1`: zero when the
      secants differ in sign or either is zero, otherwise the reciprocal of
      the weighted harmonic mean of the secants with weights `2*h1 + h0` and
      `h1 + 2*h0`. */
  function InteriorSlope(h0: real, h1: real, m0: real, m1: real): real
    requires h0 > 0.0 && h1 > 0.0
  {
    if Sign(m0) != Sign(m1) || m0 == 0.0 || m1 == 0.0 then 0.0
    else
      var w1 := 2.0 * h1 + h0;
      var w2 := h1 + 2.0 * h0;
      HarmonicDenominator(w1, w2, m0, m1);
      (w1 + w2) / (w1 / m0 + w2 / m1)
  }

  /** Two weighted reciprocals of same-signed secants cannot cancel. */
  lemma HarmonicDenominator(w1: real, w2: real, m0: real, m1: real)
    requires w1 > 0.0 && w2 > 0.0
    requires (m0 > 0.0 && m1 > 0.0) || (m0 < 0.0 && m1 < 0.0)
    ensures m0 > 0.0 ==> w1 / m0 + w2 / m1 > 0.0
    ensures m0 < 0.0 ==> w1 / m0 + w2 / m1 < 0.0
  {
    if m0 > 0.0 {
      assert w1 / m0 > 0.0;
      assert w2 / m1 > 0.0;
    } else {
      assert w1 / m0 < 0.0;
      assert w2 / m1 < 0.0;
    }
  }

  /** Slope at an end node: the one-sided three-point estimate from the end
      interval (width `h0`, secant `m0`) and its neighbour (`h1`, `m1`),
      set to zero when its sign disagrees with `m0`, and cut to `3*m0` when
      the secants change sign and it exceeds that in magnitude. */
  function EdgeSlope(h0: real, h1: real, m0: real, m1: real): real
    requires h0 > 0.0 && h1 > 0.0
  {
    var d := ((2.0 * h0 + h1) * m0 - h0 * m1) / (h0 + h1);
    if Sign(d) != Sign(m0) then 0.0
    else if Sign(m0) != Sign(m1) && Abs(d) > 3.0 * Abs(m0) then 3.0 * m0
    else d
  }

  /** The Hermite slope the interpolant assigns to node `k`. */
  function Slope(xs: seq<real>, ys: seq<real>, k: nat): real
    requires Valid(xs, ys) && k < |xs|
  {
    var n := |xs|;
    if n == 2 then Secant(xs, ys, 0)
    else if k == 0 then
      EdgeSlope(Width(xs, 0), Width(xs, 1), Secant(xs, ys, 0), Secant(xs, ys, 1))
    else if k == n - 1 then
      EdgeSlope(Width(xs, n - 2), Width(xs, n - 3), Secant(xs, ys, n - 2), Secant(xs, ys, n - 3))
    else
      InteriorSlope(Width(xs, k - 1), Width(xs, k), Secant(xs, ys, k - 1), Secant(xs, ys, k))
  }

  /** The cubic on [x0, x1] with values `y0`, `y1` and slopes `d0`, `d1` at
      its ends, valid for every real `x` (which is how the end pieces
      extrapolate). */
  function Hermite(x0: real, x1: real, y0: real, y1: real, d0: real, d1: real, x: real): real
    requires x0 < x1
  {
    PowerForm(y0, d0, d1, (y1 - y0) / (x1 - x0), x1 - x0, x - x0)
  }

  /** A Hermite cubic piece of width `h` and secant `m` in the power form
      `y0 + d0*t + c2*t^2 + c3*t^3` of its offset `t` from the left station,
      the coefficients being those of a cubic Hermite spline. */
  function PowerForm(y0: real, d0: real, d1: real, m: real, h: real, t: real): real
    requires h > 0.0
  {
    var c2 := (3.0 * m - 2.0 * d0 - d1) / h;
    var c3 := (d0 + d1 - 2.0 * m) / (h * h);
    y0 + d0 * t + c2 * t * t + c3 * t * t * t
  }

  /** The piece used to evaluate at `x`: the last interval whose left station
      is at or below `x`, the first one when `x` lies below all stations, the
      last one when `x` lies at or beyond the last station. */
  function Piece(xs: seq<real>, x: real): (k: nat)
    requires |xs| >= 2
    ensures k <= |xs| - 2
    ensures k == 0 || xs[k] <= x
    ensures k == |xs| - 2 || x < xs[k + 1]
  {
    PieceFrom(xs, x, |xs| - 2)
  }

  /** Scans the candidate pieces downward from `j`; every piece above `j`
      starts strictly beyond `x`. */
  function PieceFrom(xs: seq<real>, x: real, j: nat): (k: nat)
    requires j <= |xs| - 2
    requires forall i :: j < i <= |xs| - 2 ==> x < xs[i]
    ensures k <= j
    ensures k == 0 || xs[k] <= x
    ensures k == |xs| - 2 || x < xs[k + 1]
    decreases j
  {
    if j == 0 || xs[j] <= x then j else PieceFrom(xs, x, j - 1)
  }

  /** The interpolant's value at `x`, inside or outside the data range. */
  function Evaluate(xs: seq<real>, ys: seq<real>, x: real): real
    requires Valid(xs, ys)
  {
    var k := Piece(xs, x);
    Hermite(xs[k], xs[k + 1], ys[k], ys[k + 1], Slope(xs, ys, k), Slope(xs, ys, k + 1), x)
  }

  /** `PchipInterpolator(xs, ys, extrapolate=True)(points)`: refuses fewer than
      two stations, a value count that differs from the station count, and
      stations that do not strictly increase; otherwise evaluates at every
      point, in order. */
  function Interpolate(xs: seq<real>, ys: seq<real>, points: seq<real>): (r: Result<seq<real>, InterpError>)
    ensures r.Success? <==> Valid(xs, ys)
    ensures |xs| < 2 ==> r == Failure(TooFewPoints)
    ensures |xs| >= 2 && |ys| != |xs| ==> r == Failure(LengthMismatch)
    ensures |xs| >= 2 && |ys| == |xs| && !StepsIncrease(xs) ==> r == Failure(NotStrictlyIncreasing)
    ensures r.Success? ==> |r.value| == |points|
    ensures r.Success? ==> forall i :: 0 <= i < |points| ==> r.value[i] == Evaluate(xs, ys, points[i])
  {
    if |xs| < 2 then Failure(TooFewPoints)
    else if |ys| != |xs| then Failure(LengthMismatch)
    else if !StepsIncrease(xs) then Failure(NotStrictlyIncreasing)
    else Success(seq(|points|, i requires 0 <= i < |points| => Evaluate(xs, ys, points[i])))
  }

  /** The cubic piece takes its left value at its left station. */
  lemma HermiteLeft(x0: real, x1: real, y0: real, y1: real, d0: real, d1: real)
    requires x0 < x1
    ensures Hermite(x0, x1, y0, y1, d0, d1, x0) == y0
  {
  }

  /** The cubic piece takes its right value at its right station. */
  lemma HermiteRight(x0: real, x1: real, y0: real, y1: real, d0: real, d1: real)
    requires x0 < x1
    ensures Hermite(x0, x1, y0, y1, d0, d1, x1) == y1
  {
    PowerFormAtWidth(y0, d0, d1, (y1 - y0) / (x1 - x0), x1 - x0);
  }

  /** At the full width the power form has climbed by `m*h`. */
  lemma PowerFormAtWidth(y0: real, d0: real, d1: real, m: real, h: real)
    requires h > 0.0
    ensures PowerForm(y0, d0, d1, m, h, h) == y0 + m * h
  {
    var c2 := (3.0 * m - 2.0 * d0 - d1) / h;
    var c3 := (d0 + d1 - 2.0 * m) / (h * h);
    assert c2 * h == 3.0 * m - 2.0 * d0 - d1;
    assert c3 * (h * h) == d0 + d1 - 2.0 * m;
    assert c2 * h * h == (3.0 * m - 2.0 * d0 - d1) * h;
    assert c3 * h * h * h == (d0 + d1 - 2.0 * m) * h;
  }

  /** The piece chosen at a station is the interval starting there, or the
      last interval for the last station. */
  lemma PieceAtNode(xs: seq<real>, j: nat)
    requires |xs| >= 2 && StepsIncrease(xs) && j < |xs|
    ensures Piece(xs, xs[j]) == if j <= |xs| - 2 then j else |xs| - 2
  {
    StepsIncreaseIsIncreasing(xs);
  }

  /** Node reproduction: the interpolant passes through every data point. */
  lemma NodeReproduction(xs: seq<real>, ys: seq<real>, j: nat)
    requires Valid(xs, ys) && j < |xs|
    ensures Evaluate(xs, ys, xs[j]) == ys[j]
  {
    PieceAtNode(xs, j);
    var k := Piece(xs, xs[j]);
    if j <= |xs| - 2 {
      HermiteLeft(xs[k], xs[k + 1], ys[k], ys[k + 1], Slope(xs, ys, k), Slope(xs, ys, k + 1));
    } else {
      HermiteRight(xs[k], xs[k + 1], ys[k], ys[k + 1], Slope(xs, ys, k), Slope(xs, ys, k + 1));
    }
  }
}

=== FILE: pchip_envelope.dfy ===
/** The shape-preserving promise of the PCHIP interpolant: between two
    neighbouring stations it never leaves the band spanned by their two data
    values, so it cannot overshoot a local extremum of the data. The proof
    follows Fritsch & Carlson: every node slope is admissible for both
    adjacent intervals (same sign as the secant, at most three times it), and
    an admissible cubic Hermite piece stays inside its end values. */
module PchipEnvelope {
  import opened Pchip

  /** `d` is an admissible end slope on an interval with secant `m`: zero on
      a flat interval, otherwise of the secant's sign and at most three times
      its magnitude. */
  predicate Admissible(d: real, m: real) {
    && (m > 0.0 ==> 0.0 <= d <= 3.0 * m)
    && (m < 0.0 ==> 3.0 * m <= d <= 0.0)
    && (m == 0.0 ==> d == 0.0)
  }

  function MinOf(a: real, b: real): real {
    if a <= b then a else b
  }

  function MaxOf(a: real, b: real): real {
    if a <= b then b else a
  }

  /** The end-point slope is admissible for the end interval. */
  lemma EdgeSlopeAdmissible(h0: real, h1: real, m0: real, m1: real)
    requires h0 > 0.0 && h1 > 0.0
    ensures Admissible(EdgeSlope(h0, h1, m0, m1), m0)
  {
    var d := ((2.0 * h0 + h1) * m0 - h0 * m1) / (h0 + h1);
    if Sign(d) == Sign(m0) && !(Sign(m0) != Sign(m1) && Abs(d) > 3.0 * Abs(m0)) {
      // the estimate survives unclipped, so the secants agree in sign or it is small
      if Sign(m0) == Sign(m1) {
        assert d * (h0 + h1) == (2.0 * h0 + h1) * m0 - h0 * m1;
        if m0 > 0.0 {
          assert h0 * m1 > 0.0;
          assert d * (h0 + h1) <= 3.0 * m0 * (h0 + h1);
        } else if m0 < 0.0 {
          assert h0 * m1 < 0.0;
          assert d * (h0 + h1) >= 3.0 * m0 * (h0 + h1);
        }
      }
    }
  }

  /** Products and quotients of the signs the proofs below need. */
  lemma MulNonneg(a: real, b: real)
    requires a >= 0.0 && b >= 0.0
    ensures a * b >= 0.0
  {
  }

  lemma MulMonotone(a: real, b: real, c: real)
    requires a <= b && c >= 0.0
    ensures a * c <= b * c
  {
  }

  lemma MulStrict(a: real, b: real, c: real)
    requires a < b && c > 0.0
    ensures a * c < b * c
  {
  }

  lemma QuotientAtMost(num: real, den: real, bound: real)
    requires den > 0.0 && num <= bound * den
    ensures num / den <= bound
  {
    assert num / den * den == num;
    if num / den > bound {
      MulStrict(bound, num / den, den);
    }
  }

  lemma QuotientPositive(num: real, den: real)
    requires num > 0.0 && den > 0.0
    ensures num / den > 0.0
  {
  }

  /** The weighted reciprocals `p = w1/m0` and `q = w2/m1`, with the weights'
      own bounds, make `3*m0*(p+q)` and `3*m1*(p+q)` exceed `w1 + w2`. */
  lemma HarmonicCore(w1: real, w2: real, m0: real, m1: real, p: real, q: real)
    requires m0 > 0.0 && m1 > 0.0 && p > 0.0 && q > 0.0
    requires p * m0 == w1 && q * m1 == w2
    requires w1 + w2 <= 3.0 * w1 && w1 + w2 <= 3.0 * w2
    ensures w1 + w2 <= 3.0 * m0 * (p + q)
    ensures w1 + w2 <= 3.0 * m1 * (p + q)
  {
    MulNonneg(m0, q);
    MulNonneg(m1, p);
    assert 3.0 * m0 * (p + q) == 3.0 * w1 + 3.0 * (m0 * q);
    assert 3.0 * m1 * (p + q) == 3.0 * (m1 * p) + 3.0 * w2;
  }

  /** With positive secants the interior slope lies in (0, 3*m0] and (0, 3*m1]. */
  lemma HarmonicSlopeBounds(h0: real, h1: real, m0: real, m1: real)
    requires h0 > 0.0 && h1 > 0.0 && m0 > 0.0 && m1 > 0.0
    ensures var w1 := 2.0 * h1 + h0;
            var w2 := h1 + 2.0 * h0;
            var d := (w1 + w2) / (w1 / m0 + w2 / m1);
            0.0 < d <= 3.0 * m0 && d <= 3.0 * m1
  {
    var w1 := 2.0 * h1 + h0;
    var w2 := h1 + 2.0 * h0;
    var p := w1 / m0;
    var q := w2 / m1;
    QuotientPositive(w1, m0);
    QuotientPositive(w2, m1);
    HarmonicCore(w1, w2, m0, m1, p, q);
    QuotientPositive(w1 + w2, p + q);
    QuotientAtMost(w1 + w2, p + q, 3.0 * m0);
    QuotientAtMost(w1 + w2, p + q, 3.0 * m1);
  }

  /** The interior slope is admissible for both intervals that meet at its node. */
  lemma InteriorSlopeAdmissible(h0: real, h1: real, m0: real, m1: real)
    requires h0 > 0.0 && h1 > 0.0
    ensures Admissible(InteriorSlope(h0, h1, m0, m1), m0)
    ensures Admissible(InteriorSlope(h0, h1, m0, m1), m1)
  {
    if !(Sign(m0) != Sign(m1) || m0 == 0.0 || m1 == 0.0) {
      var w1 := 2.0 * h1 + h0;
      var w2 := h1 + 2.0 * h0;
      if m0 > 0.0 {
        HarmonicSlopeBounds(h0, h1, m0, m1);
      } else {
        HarmonicSlopeBounds(h0, h1, -m0, -m1);
        assert w1 / -m0 + w2 / -m1 == -(w1 / m0 + w2 / m1);
        assert (w1 + w2) / (w1 / -m0 + w2 / -m1) == -((w1 + w2) / (w1 / m0 + w2 / m1));
      }
    }
  }

  /** Both end slopes of every interval are admissible for that interval. */
  lemma SlopesAdmissible(xs: seq<real>, ys: seq<real>, k: nat)
    requires Valid(xs, ys) && k < |xs| - 1
    ensures Admissible(Slope(xs, ys, k), Secant(xs, ys, k))
    ensures Admissible(Slope(xs, ys, k + 1), Secant(xs, ys, k))
  {
    var n := |xs|;
    if n > 2 {
      if k == 0 {
        EdgeSlopeAdmissible(Width(xs, 0), Width(xs, 1), Secant(xs, ys, 0), Secant(xs, ys, 1));
      } else {
        InteriorSlopeAdmissible(Width(xs, k - 1), Width(xs, k), Secant(xs, ys, k - 1), Secant(xs, ys, k));
      }
      if k + 1 == n - 1 {
        EdgeSlopeAdmissible(Width(xs, n - 2), Width(xs, n - 3), Secant(xs, ys, n - 2), Secant(xs, ys, n - 3));
      } else {
        InteriorSlopeAdmissible(Width(xs, k), Width(xs, k + 1), Secant(xs, ys, k), Secant(xs, ys, k + 1));
      }
    }
  }

  /** The cubic piece, divided by its width, at relative position `s`, in the
      Hermite basis: `m*s^2*(3-2s) + a*s*(1-s)^2 - b*s^2*(1-s)`. */
  function Shape(m: real, a: real, b: real, s: real): real {
    m * (s * s * (3.0 - 2.0 * s)) + a * (s * (1.0 - s) * (1.0 - s)) - b * (s * s * (1.0 - s))
  }

  /** What the shape leaves below `m`: a sum of terms that are not negative
      on a rising interval with admissible slopes. */
  lemma UpperGap(m: real, a: real, b: real, s: real)
    ensures m - Shape(m, a, b, s)
         == m * ((1.0 - s) * (1.0 - s) * (1.0 - s))
            + (3.0 * m - a) * (s * (1.0 - s) * (1.0 - s))
            + b * (s * s * (1.0 - s))
  {
  }

  /** The shape itself as a sum of terms that are not negative on a rising
      interval with admissible slopes. */
  lemma LowerGap(m: real, a: real, b: real, s: real)
    ensures Shape(m, a, b, s)
         == m * (s * s * s)
            + a * (s * (1.0 - s) * (1.0 - s))
            + (3.0 * m - b) * (s * s * (1.0 - s))
  {
  }

  lemma CubeNonneg(u: real)
    requires u >= 0.0
    ensures u * u * u >= 0.0
  {
    MulNonneg(u, u);
    MulNonneg(u * u, u);
  }

  /** The two Hermite basis weights that carry the slopes are not negative. */
  lemma WeightsNonneg(s: real)
    requires 0.0 <= s <= 1.0
    ensures s * (1.0 - s) * (1.0 - s) >= 0.0
    ensures s * s * (1.0 - s) >= 0.0
  {
    MulNonneg(s, 1.0 - s);
    MulNonneg(s * (1.0 - s), 1.0 - s);
    MulNonneg(s, s);
    MulNonneg(s * s, 1.0 - s);
  }

  /** On a rising interval with admissible slopes the shape stays in [0, m]. */
  lemma ShapeBoundsRising(m: real, a: real, b: real, s: real)
    requires m >= 0.0 && 0.0 <= s <= 1.0
    requires 0.0 <= a <= 3.0 * m && 0.0 <= b <= 3.0 * m
    ensures 0.0 <= Shape(m, a, b, s) <= m
  {
    WeightsNonneg(s);
    CubeNonneg(1.0 - s);
    CubeNonneg(s);
    assert m * ((1.0 - s) * (1.0 - s) * (1.0 - s)) >= 0.0 by {
      MulNonneg(m, (1.0 - s) * (1.0 - s) * (1.0 - s));
    }
    assert m * (s * s * s) >= 0.0 by {
      MulNonneg(m, s * s * s);
    }
    assert (3.0 * m - a) * (s * (1.0 - s) * (1.0 - s)) >= 0.0 by {
      MulNonneg(3.0 * m - a, s * (1.0 - s) * (1.0 - s));
    }
    assert (3.0 * m - b) * (s * s * (1.0 - s)) >= 0.0 by {
      MulNonneg(3.0 * m - b, s * s * (1.0 - s));
    }
    assert a * (s * (1.0 - s) * (1.0 - s)) >= 0.0 by {
      MulNonneg(a, s * (1.0 - s) * (1.0 - s));
    }
    assert b * (s * s * (1.0 - s)) >= 0.0 by {
      MulNonneg(b, s * s * (1.0 - s));
    }
    UpperGap(m, a, b, s);
    LowerGap(m, a, b, s);
  }

  /** With admissible slopes the shape lies between 0 and the secant `m`. */
  lemma ShapeBounds(m: real, a: real, b: real, s: real)
    requires 0.0 <= s <= 1.0
    requires Admissible(a, m) && Admissible(b, m)
    ensures MinOf(0.0, m) <= Shape(m, a, b, s) <= MaxOf(0.0, m)
  {
    if m >= 0.0 {
      ShapeBoundsRising(m, a, b, s);
    } else {
      ShapeBoundsRising(-m, -a, -b, s);
      assert Shape(-m, -a, -b, s) == -Shape(m, a, b, s);
    }
  }

  lemma DivideThenSquare(c: real, h: real, s: real)
    requires h > 0.0
    ensures c / h * (s * h) * (s * h) == c * (s * s) * h
  {
    assert c / h * h == c;
  }

  lemma DivideThenCube(c: real, h: real, s: real)
    requires h > 0.0
    ensures c / (h * h) * (s * h) * (s * h) * (s * h) == c * (s * s * s) * h
  {
    assert c / (h * h) * (h * h) == c;
  }

  /** The power form of a cubic piece at relative position `s` is its left
      value plus the width times the Hermite-basis shape. */
  lemma PowerFormAsShape(y0: real, d0: real, d1: real, m: real, h: real, s: real)
    requires h > 0.0
    ensures PowerForm(y0, d0, d1, m, h, s * h) == y0 + h * Shape(m, d0, d1, s)
  {
    DivideThenSquare(3.0 * m - 2.0 * d0 - d1, h, s);
    DivideThenCube(d0 + d1 - 2.0 * m, h, s);
  }

  /** A cubic piece of width `h` and secant `m` with admissible end slopes
      stays between its end values `y0` and `y0 + m*h` on its own interval. */
  lemma PowerFormWithinEnds(y0: real, d0: real, d1: real, m: real, h: real, s: real)
    requires h > 0.0 && 0.0 <= s <= 1.0
    requires Admissible(d0, m) && Admissible(d1, m)
    ensures MinOf(y0, y0 + h * m) <= PowerForm(y0, d0, d1, m, h, s * h) <= MaxOf(y0, y0 + h * m)
  {
    PowerFormAsShape(y0, d0, d1, m, h, s);
    ShapeBounds(m, d0, d1, s);
    ScaledWithin(h, Shape(m, d0, d1, s), m);
  }

  /** A cubic piece with admissible end slopes stays between its end values
      on its own interval. */
  lemma HermiteWithinEnds(x0: real, x1: real, y0: real, y1: real, d0: real, d1: real, x: real)
    requires x0 < x1 && x0 <= x <= x1
    requires Admissible(d0, (y1 - y0) / (x1 - x0)) && Admissible(d1, (y1 - y0) / (x1 - x0))
    ensures MinOf(y0, y1) <= Hermite(x0, x1, y0, y1, d0, d1, x) <= MaxOf(y0, y1)
  {
    var h := x1 - x0;
    var m := (y1 - y0) / h;
    var s := (x - x0) / h;
    RelativePosition(x0, x1, x);
    assert x - x0 == s * h;
    assert y0 + h * m == y1;
    PowerFormWithinEnds(y0, d0, d1, m, h, s);
  }

  lemma RelativePosition(x0: real, x1: real, x: real)
    requires x0 < x1 && x0 <= x <= x1
    ensures 0.0 <= (x - x0) / (x1 - x0) <= 1.0
  {
    QuotientAtMost(x - x0, x1 - x0, 1.0);
  }

  /** Scaling by a positive width keeps `q` between 0 and `m`. */
  lemma ScaledWithin(h: real, q: real, m: real)
    requires h > 0.0 && MinOf(0.0, m) <= q <= MaxOf(0.0, m)
    ensures MinOf(0.0, h * m) <= h * q <= MaxOf(0.0, h * m)
  {
    if m >= 0.0 {
      MulMonotone(q, m, h);
      MulNonneg(q, h);
      assert 0.0 <= h * q <= h * m;
    } else {
      MulMonotone(m, q, h);
      MulMonotone(q, 0.0, h);
    }
  }

  /** No overshoot: between stations `k` and `k+1` the interpolant stays
      within the two data values there. */
  lemma NoOvershoot(xs: seq<real>, ys: seq<real>, k: nat, x: real)
    requires Valid(xs, ys) && k < |xs| - 1
    requires xs[k] <= x <= xs[k + 1]
    ensures MinOf(ys[k], ys[k + 1]) <= Evaluate(xs, ys, x) <= MaxOf(ys[k], ys[k + 1])
  {
    StepsIncreaseIsIncreasing(xs);
    var j := Piece(xs, x);
    if j == k {
      SlopesAdmissible(xs, ys, k);
      HermiteWithinEnds(xs[k], xs[k + 1], ys[k], ys[k + 1], Slope(xs, ys, k), Slope(xs, ys, k + 1), x);
    } else {
      // only the right station itself can fall into the next piece
      assert j == k + 1 && x == xs[k + 1];
      NodeReproduction(xs, ys, k + 1);
    }
  }
}

=== FILE: pchip_linear.dfy ===
/** Data on a straight line: every secant, and so every node slope, is the
    line's slope, both cubic coefficients vanish, and the interpolant is the
    line itself, inside the data range and when it extrapolates. */
module PchipLinear {
  import opened Pchip

  /** Every value lies on the line `a + b*x`. */
  predicate Collinear(xs: seq<real>, ys: seq<real>, a: real, b: real) {
    |ys| == |xs| && forall i :: 0 <= i < |xs| ==> ys[i] == a + b * xs[i]
  }

  lemma SecantOfLine(xs: seq<real>, ys: seq<real>, a: real, b: real, k: nat)
    requires Valid(xs, ys) && Collinear(xs, ys, a, b) && k < |xs| - 1
    ensures Secant(xs, ys, k) == b
  {
    var h := Width(xs, k);
    assert ys[k + 1] - ys[k] == b * h by {
      assert ys[k + 1] == a + b * xs[k + 1];
      assert ys[k] == a + b * xs[k];
    }
  }

  /** Equal secants on both sides of an interior node give that secant. */
  lemma InteriorSlopeOfEqualSecants(h0: real, h1: real, b: real)
    requires h0 > 0.0 && h1 > 0.0
    ensures InteriorSlope(h0, h1, b, b) == b
  {
    if b != 0.0 {
      var w1 := 2.0 * h1 + h0;
      var w2 := h1 + 2.0 * h0;
      assert w1 / b + w2 / b == (w1 + w2) / b;
    }
  }

  /** Equal secants next to an end node give that secant. */
  lemma EdgeSlopeOfEqualSecants(h0: real, h1: real, b: real)
    requires h0 > 0.0 && h1 > 0.0
    ensures EdgeSlope(h0, h1, b, b) == b
  {
    assert (2.0 * h0 + h1) * b - h0 * b == (h0 + h1) * b;
  }

  lemma SlopeOfLine(xs: seq<real>, ys: seq<real>, a: real, b: real, k: nat)
    requires Valid(xs, ys) && Collinear(xs, ys, a, b) && k < |xs|
    ensures Slope(xs, ys, k) == b
  {
    var n := |xs|;
    if n == 2 {
      SecantOfLine(xs, ys, a, b, 0);
    } else if k == 0 {
      SecantOfLine(xs, ys, a, b, 0);
      SecantOfLine(xs, ys, a, b, 1);
      EdgeSlopeOfEqualSecants(Width(xs, 0), Width(xs, 1), b);
    } else if k == n - 1 {
      SecantOfLine(xs, ys, a, b, n - 2);
      SecantOfLine(xs, ys, a, b, n - 3);
      EdgeSlopeOfEqualSecants(Width(xs, n - 2), Width(xs, n - 3), b);
    } else {
      SecantOfLine(xs, ys, a, b, k - 1);
      SecantOfLine(xs, ys, a, b, k);
      InteriorSlopeOfEqualSecants(Width(xs, k - 1), Width(xs, k), b);
    }
  }

  /** A piece whose end slopes equal its secant has no quadratic or cubic
      term. */
  lemma PowerFormOfLine(y0: real, b: real, h: real, t: real)
    requires h > 0.0
    ensures PowerForm(y0, b, b, b, h, t) == y0 + b * t
  {
    assert (3.0 * b - 2.0 * b - b) / h == 0.0;
    assert (b + b - 2.0 * b) / (h * h) == 0.0;
  }

  /** A Hermite piece whose end slopes both equal its secant is the chord
      line through its ends. */
  lemma HermiteOfLine(x0: real, x1: real, y0: real, y1: real, b: real, x: real)
    requires x0 < x1 && y1 - y0 == b * (x1 - x0)
    ensures Hermite(x0, x1, y0, y1, b, b, x) == y0 + b * (x - x0)
  {
    assert (y1 - y0) / (x1 - x0) == b;
    PowerFormOfLine(y0, b, x1 - x0, x - x0);
  }

  /** Two neighbouring points of collinear data rise by the slope times
      their distance. */
  lemma LineStep(xs: seq<real>, ys: seq<real>, a: real, b: real, k: nat)
    requires Collinear(xs, ys, a, b) && k < |xs| - 1
    ensures ys[k] == a + b * xs[k]
    ensures ys[k + 1] - ys[k] == b * (xs[k + 1] - xs[k])
  {
    assert ys[k + 1] == a + b * xs[k + 1];
  }

  lemma LineThrough(a: real, b: real, x0: real, y0: real, x: real)
    requires y0 == a + b * x0
    ensures y0 + b * (x - x0) == a + b * x
  {
  }

  /** A Hermite piece with both end slopes `b` through two points of the
      line `a + b*x` is that line. */
  lemma HermiteOnLine(x0: real, x1: real, y0: real, y1: real, d0: real, d1: real, a: real, b: real, x: real)
    requires x0 < x1 && y0 == a + b * x0 && y1 - y0 == b * (x1 - x0)
    requires d0 == b && d1 == b
    ensures Hermite(x0, x1, y0, y1, d0, d1, x) == a + b * x
  {
    HermiteOfLine(x0, x1, y0, y1, b, x);
    LineThrough(a, b, x0, y0, x);
  }

  /** Collinear data is reproduced exactly at every `x`, and extrapolation
      continues the line. */
  lemma LinearDataReproduced(xs: seq<real>, ys: seq<real>, a: real, b: real, x: real)
    requires Valid(xs, ys) && Collinear(xs, ys, a, b)
    ensures Evaluate(xs, ys, x) == a + b * x
  {
    var k := Piece(xs, x);
    SlopeOfLine(xs, ys, a, b, k);
    SlopeOfLine(xs, ys, a, b, k + 1);
    LineStep(xs, ys, a, b, k);
    PieceOnLine(xs, ys, x, k, a, b);
  }

  /** The piece of `x`'s interval, when both its end slopes equal the rise
      of the data over it and its left end is on the line, is that line. */
  lemma PieceOnLine(xs: seq<real>, ys: seq<real>, x: real, k: nat, a: real, b: real)
    requires Valid(xs, ys) && k == Piece(xs, x)
    requires Slope(xs, ys, k) == b && Slope(xs, ys, k + 1) == b
    requires ys[k] == a + b * xs[k] && ys[k + 1] - ys[k] == b * (xs[k + 1] - xs[k])
    ensures Evaluate(xs, ys, x) == a + b * x
  {
    SlopedPieceOnLine(xs, ys, x, k, a, b, ys[k], ys[k + 1]);
  }

  lemma SlopedPieceOnLine(xs: seq<real>, ys: seq<real>, x: real, k: nat, a: real, b: real, y0: real, y1: real)
    requires Valid(xs, ys) && k < |xs| - 1
    requires Slope(xs, ys, k) == b && Slope(xs, ys, k + 1) == b
    requires y0 == a + b * xs[k] && y1 - y0 == b * (xs[k + 1] - xs[k])
    ensures Hermite(xs[k], xs[k + 1], y0, y1, Slope(xs, ys, k), Slope(xs, ys, k + 1), x) == a + b * x
  {
    HermiteOnLine(xs[k], xs[k + 1], y0, y1, Slope(xs, ys, k), Slope(xs, ys, k + 1), a, b, x);
  }
}

=== FILE: propeller.dfy ===
/** `Propeller.__init__` and `Propeller.parametrize`: the two accepted shapes
    of the radial station argument, the uniform radial grid, PCHIP resampling
    of chord, twist, sweep and height (`zhigh`) onto that grid with the tip
    point dropped, and the normalised stations `xi` / dimensional stations
    `r_station_m`. Every Python exception the constructor raises on the
    modelled inputs becomes a `Failure`. */
module Propeller {
  import opened Wrappers
  import opened RealSeqs
  import opened RadialGrid
  import Pchip

  /** The distributions `parametrize` resamples (thickness is not one of them). */
  datatype Distribution = Chord | Twist | Sweep | Zhigh

  /** What makes the constructor raise. */
  datatype Error =
    | MissingStations                      // `radial_dist_m` left as None
    | InvalidStationShape                  // a list of stations whose length is not 5
    | EmptyStations                        // `np.min` / `np.max` of an empty station array
    | MissingSectionCount                  // `n_sections` left as None, so `DoF + 1` fails
    | NegativeSampleCount                  // `np.linspace` asked for fewer than zero points
    | DropFromEmpty                        // `np.delete(a, -1)` on the empty grid
    | UnknownMethod                        // a method other than 'PCHIP' leaves the results unbound
    | MissingValues(which: Distribution)   // chord or twist values left as None
    | Interpolation(which: Distribution, cause: Pchip.InterpError)
    | ZeroReference                        // the chord's tip station is zero, so `xi` divides a non-empty grid by zero

  /** The `radial_dist_m` argument: a Python list of station arrays, a single
      station array (an ndarray, a pandas column, or a Python list of plain
      numbers whose length is not five, which the shared branch treats as a
      one-dimensional array), or None. */
  datatype StationArg =
    | StationList(members: seq<seq<real>>)
    | StationArray(values: seq<real>)
    | NoStationArg

  /** The five station arrays `station_chord_m`, `station_twist_deg`,
      `station_thick_m`, `station_sweep_m` and `station_zhigh_m`. */
  datatype Stations = Stations(chord: seq<real>, twist: seq<real>, thick: seq<real>, sweep: seq<real>, zhigh: seq<real>)

  /** The two input shapes the constructor tells apart. */
  datatype StationShape = PerDistribution(stations: Stations) | Shared(values: seq<real>)

  /** The value arrays `chord_dist_m`, `twist_dist_deg`, `sweep_dist_m` and
      `zhigh_dist_m`; each may be left as None. */
  datatype Distributions = Distributions(chord: Option<seq<real>>, twist: Option<seq<real>>, sweep: Option<seq<real>>, zhigh: Option<seq<real>>)

  /** The five results of `parametrize`: the grid without its tip point and
      the resampled distributions, sweep and zhigh absent when not supplied. */
  datatype Parametrized = Parametrized(stations: seq<real>, chord: seq<real>, twist: seq<real>, sweep: Option<seq<real>>, zhigh: Option<seq<real>>)

  /** A constructed propeller: diameter `D_m`, `n_sections`, the unpacked
      stations, the input distributions, `r_station_p_m` (set only for a
      list of five; the shared branch never creates the attribute, recorded
      here as None), `xi`, `r_station_m` (set only for a shared array) and the
      resampled distributions. */
  datatype Propeller = Propeller(
    diameter: real,
    sections: int,
    stations: Stations,
    inputs: Distributions,
    rStationP: Option<seq<real>>,
    xi: seq<real>,
    rStation: Option<seq<real>>,
    chord: seq<real>,
    twist: seq<real>,
    sweep: Option<seq<real>>,
    zhigh: Option<seq<real>>)

  /** The list of five station arrays in the constructor's positional order. */
  function Pack(st: Stations): StationArg {
    StationList([st.chord, st.twist, st.thick, st.sweep, st.zhigh])
  }

  /** Decides the input shape: a list of exactly five arrays is unpacked
      positionally, a single array is shared by all distributions. A list of
      any other length falls through to the shared branch in the source, where
      `np.min` or the interpolator rejects it. None has no shape;
      `Construct` decides which error it raises. */
  function Dispatch(arg: StationArg): (r: Result<StationShape, Error>)
    ensures r.Success? <==> arg.StationArray? || (arg.StationList? && |arg.members| == 5)
    ensures r.Success? && r.value.PerDistribution? ==> Pack(r.value.stations) == arg
    ensures r.Success? && r.value.Shared? ==> arg == StationArray(r.value.values)
    ensures arg.StationList? && |arg.members| != 5 ==> r == Failure(InvalidStationShape)
    ensures arg.NoStationArg? ==> r == Failure(MissingStations)
  {
    match arg
    case StationList(m) =>
      if |m| == 5 then Success(PerDistribution(Stations(m[0], m[1], m[2], m[3], m[4])))
      else Failure(InvalidStationShape)
    case StationArray(v) => Success(Shared(v))
    case NoStationArg => Failure(MissingStations)
  }

  /** `out` holds, index for index, the interpolant through (`xs`, `ys`)
      evaluated at the points of `grid`. */
  ghost predicate AlignedWith(out: seq<real>, grid: seq<real>, xs: seq<real>, ys: seq<real>) {
    && Pchip.Valid(xs, ys)
    && |out| == |grid|
    && forall i {:trigger out[i]} :: 0 <= i < |grid| ==> out[i] == Pchip.Evaluate(xs, ys, grid[i])
  }

  /** The native station array of one distribution. */
  function StationsFor(st: Stations, which: Distribution): seq<real> {
    match which
    case Chord => st.chord
    case Twist => st.twist
    case Sweep => st.sweep
    case Zhigh => st.zhigh
  }

  /** The input values of one distribution, None when not supplied. */
  function ValuesFor(dist: Distributions, which: Distribution): Option<seq<real>> {
    match which
    case Chord => dist.chord
    case Twist => dist.twist
    case Sweep => dist.sweep
    case Zhigh => dist.zhigh
  }

  /** The resampled array of one distribution, None when it was not supplied. */
  function ResampledFor(p: Parametrized, which: Distribution): Option<seq<real>> {
    match which
    case Chord => Some(p.chord)
    case Twist => Some(p.twist)
    case Sweep => p.sweep
    case Zhigh => p.zhigh
  }

  /** A distribution the resampling accepts: values present and valid data. */
  predicate Resamplable(xs: seq<real>, values: Option<seq<real>>) {
    values.Some? && Pchip.Valid(xs, values.value)
  }

  /** One `PchipInterpolator(...)(r_station_p_m)` followed by `np.delete(_, -1)`. */
  function Resample(which: Distribution, xs: seq<real>, ys: seq<real>, full: seq<real>): (r: Result<seq<real>, Error>)
    ensures r.Success? <==> Pchip.Valid(xs, ys) && |full| > 0
    ensures !Pchip.Valid(xs, ys) ==> r.Failure? && r.error.Interpolation? && r.error.which == which
    ensures r.Success? ==> AlignedWith(r.value, DropLast(full), xs, ys)
  {
    match Pchip.Interpolate(xs, ys, full)
    case Failure(e) => Failure(Interpolation(which, e))
    case Success(values) =>
      if |values| == 0 then Failure(DropFromEmpty) else Success(DropLast(values))
  }

  /** Resampling a distribution the source requires (chord, twist): passing
      None to the interpolator raises. */
  function ResampleRequired(which: Distribution, xs: seq<real>, values: Option<seq<real>>, full: seq<real>): (r: Result<seq<real>, Error>)
    ensures r.Success? <==> Resamplable(xs, values) && |full| > 0
    ensures values.None? ==> r == Failure(MissingValues(which))
    ensures r.Success? ==> AlignedWith(r.value, DropLast(full), xs, values.value)
  {
    match values
    case None => Failure(MissingValues(which))
    case Some(ys) => Resample(which, xs, ys, full)
  }

  /** Resampling an optional distribution (sweep, zhigh): None stays None. */
  function ResampleOptional(which: Distribution, xs: seq<real>, values: Option<seq<real>>, full: seq<real>): (r: Result<Option<seq<real>>, Error>)
    ensures values.None? ==> r == Success(None)
    ensures values.Some? ==> (r.Success? <==> Pchip.Valid(xs, values.value) && |full| > 0)
    ensures r.Success? ==> (r.value.Some? <==> values.Some?)
    ensures r.Success? && r.value.Some? ==> AlignedWith(r.value.value, DropLast(full), xs, values.value)
  {
    match values
    case None => Success(None)
    case Some(ys) =>
      var out :- Resample(which, xs, ys, full);
      Success(Some(out))
  }

  /** Everything `parametrize` needs to succeed on a non-negative `DoF` with
      the 'PCHIP' method. */
  predicate Parametrizable(st: Stations, dist: Distributions) {
    && Resamplable(st.chord, dist.chord)
    && Resamplable(st.twist, dist.twist)
    && (dist.sweep.Some? ==> Pchip.Valid(st.sweep, dist.sweep.value))
    && (dist.zhigh.Some? ==> Pchip.Valid(st.zhigh, dist.zhigh.value))
  }

  /** The resampling half of `parametrize`: every present distribution
      interpolated on the full grid `full`, then the last point dropped from
      every array, the grid included. */
  function ResampleAll(st: Stations, dist: Distributions, full: seq<real>): (r: Result<Parametrized, Error>)
    ensures r.Success? <==> Parametrizable(st, dist) && |full| > 0
    ensures r.Success? ==> r.value.stations == DropLast(full)
    ensures r.Success? ==> AlignedWith(r.value.chord, r.value.stations, st.chord, dist.chord.value)
    ensures r.Success? ==> AlignedWith(r.value.twist, r.value.stations, st.twist, dist.twist.value)
    ensures r.Success? ==> (r.value.sweep.Some? <==> dist.sweep.Some?)
    ensures r.Success? ==> (r.value.zhigh.Some? <==> dist.zhigh.Some?)
    ensures r.Success? && dist.sweep.Some? ==>
              AlignedWith(r.value.sweep.value, r.value.stations, st.sweep, dist.sweep.value)
    ensures r.Success? && dist.zhigh.Some? ==>
              AlignedWith(r.value.zhigh.value, r.value.stations, st.zhigh, dist.zhigh.value)
  {
    var chord :- ResampleRequired(Chord, st.chord, dist.chord, full);
    var twist :- ResampleRequired(Twist, st.twist, dist.twist, full);
    var sweep :- ResampleOptional(Sweep, st.sweep, dist.sweep, full);
    var zhigh :- ResampleOptional(Zhigh, st.zhigh, dist.zhigh, full);
    Success(Parametrized(DropLast(full), chord, twist, sweep, zhigh))
  }

  /** `parametrize(hub, tip, parametrization, DoF)`: `DoF + 1` evenly spaced
      points from hub to tip, each present distribution interpolated at every
      point, the last point dropped from every array. */
  function Parametrize(st: Stations, dist: Distributions, hub: real, tip: real, parametrization: string, dof: int): (r: Result<Parametrized, Error>)
    ensures dof < -1 ==> r == Failure(NegativeSampleCount)
    ensures dof == -1 && parametrization == "PCHIP" && Parametrizable(st, dist) ==> r == Failure(DropFromEmpty)
    ensures dof >= 0 && parametrization != "PCHIP" ==> r == Failure(UnknownMethod)
    ensures r.Success? <==> dof >= 0 && parametrization == "PCHIP" && Parametrizable(st, dist)
    ensures r.Success? ==> r.value.stations == CommonGrid(hub, tip, dof)
    ensures r.Success? ==> AlignedWith(r.value.chord, r.value.stations, st.chord, dist.chord.value)
    ensures r.Success? ==> AlignedWith(r.value.twist, r.value.stations, st.twist, dist.twist.value)
    ensures r.Success? ==> (r.value.sweep.Some? <==> dist.sweep.Some?)
    ensures r.Success? ==> (r.value.zhigh.Some? <==> dist.zhigh.Some?)
    ensures r.Success? && dist.sweep.Some? ==>
              AlignedWith(r.value.sweep.value, r.value.stations, st.sweep, dist.sweep.value)
    ensures r.Success? && dist.zhigh.Some? ==>
              AlignedWith(r.value.zhigh.value, r.value.stations, st.zhigh, dist.zhigh.value)
  {
    if dof + 1 < 0 then Failure(NegativeSampleCount)
    else
      var full := Linspace(hub, tip, dof + 1);
      if parametrization == "PCHIP" then ResampleAll(st, dist, full)
      else if |full| == 0 then Failure(DropFromEmpty)
      else Failure(UnknownMethod)
  }

  /** The list branch of the constructor: the grid runs over the chord
      stations and `xi` is the grid divided by the largest chord station;
      `r_station_m` is never set. An empty grid (zero sections) divides to
      an empty `xi` whatever the largest station is. */
  function ConstructFromList(diameter: real, dist: Distributions, st: Stations, sections: Option<int>): (r: Result<Propeller, Error>)
    ensures |st.chord| == 0 ==> r == Failure(EmptyStations)
    ensures |st.chord| > 0 && sections.None? ==> r == Failure(MissingSectionCount)
    ensures r.Success? <==>
              && |st.chord| > 0 && sections.Some? && sections.value >= 0
              && Parametrizable(st, dist) && (Max(st.chord) != 0.0 || sections.value == 0)
    ensures |st.chord| > 0 && sections.Some? && sections.value > 0 && Parametrizable(st, dist) && Max(st.chord) == 0.0 ==>
              r == Failure(ZeroReference)
    ensures r.Success? ==>
              && r.value.stations == st && r.value.diameter == diameter && r.value.inputs == dist && r.value.sections == sections.value
              && r.value.rStation.None?
              && r.value.rStationP == Some(CommonGrid(Min(st.chord), Max(st.chord), sections.value))
              && |r.value.xi| == sections.value
    ensures r.Success? && Max(st.chord) != 0.0 ==> r.value.xi == Divide(r.value.rStationP.value, Max(st.chord))
    ensures r.Success? ==>
              Parametrize(st, dist, Min(st.chord), Max(st.chord), "PCHIP", sections.value)
              == Success(Parametrized(r.value.rStationP.value, r.value.chord, r.value.twist, r.value.sweep, r.value.zhigh))
  {
    if |st.chord| == 0 then Failure(EmptyStations)
    else if sections.None? then Failure(MissingSectionCount)
    else
      var tip := Max(st.chord);
      var p :- Parametrize(st, dist, Min(st.chord), tip, "PCHIP", sections.value);
      var xi :- Normalise(p.stations, tip);
      Success(Propeller(diameter, sections.value, st, dist, Some(p.stations), xi, None,
                        p.chord, p.twist, p.sweep, p.zhigh))
  }

  /** `grid / reference` as NumPy computes it for `xi`: an empty grid gives
      an empty result for any reference. Dividing a non-empty grid by zero
      is `ZeroReference`, which stands for the −inf entries NumPy returns
      without raising. */
  function Normalise(grid: seq<real>, reference: real): (r: Result<seq<real>, Error>)
    ensures r.Success? <==> reference != 0.0 || |grid| == 0
    ensures r.Failure? ==> r.error == ZeroReference
    ensures r.Success? ==> |r.value| == |grid| && forall i :: 0 <= i < |grid| ==> r.value[i] * reference == grid[i]
    ensures r.Success? && reference != 0.0 ==> r.value == Divide(grid, reference)
  {
    if |grid| == 0 then Success([])
    else if reference == 0.0 then Failure(ZeroReference)
    else Success(Divide(grid, reference))
  }

  /** The shared-array branch of the constructor: the grid runs over the
      shared array, `xi` receives the dimensional grid itself and
      `r_station_m` is `xi * D_m/2`; `r_station_p_m` is never set. */
  function ConstructShared(diameter: real, dist: Distributions, v: seq<real>, sections: Option<int>): (r: Result<Propeller, Error>)
    ensures |v| == 0 ==> r == Failure(EmptyStations)
    ensures |v| > 0 && sections.None? ==> r == Failure(MissingSectionCount)
    ensures r.Success? <==>
              |v| > 0 && sections.Some? && sections.value >= 0 && Parametrizable(Stations(v, v, v, v, v), dist)
    ensures r.Success? ==>
              && r.value.stations == Stations(v, v, v, v, v) && r.value.diameter == diameter && r.value.inputs == dist && r.value.sections == sections.value
              && r.value.rStationP.None?
              && r.value.xi == CommonGrid(Min(v), Max(v), sections.value)
              && r.value.rStation == Some(Scale(r.value.xi, diameter / 2.0))
    ensures r.Success? ==>
              Parametrize(Stations(v, v, v, v, v), dist, Min(v), Max(v), "PCHIP", sections.value)
              == Success(Parametrized(r.value.xi, r.value.chord, r.value.twist, r.value.sweep, r.value.zhigh))
  {
    if |v| == 0 then Failure(EmptyStations)
    else if sections.None? then Failure(MissingSectionCount)
    else
      var st := Stations(v, v, v, v, v);
      var p :- Parametrize(st, dist, Min(v), Max(v), "PCHIP", sections.value);
      Success(Propeller(diameter, sections.value, st, dist, None, p.stations, Some(Scale(p.stations, diameter / 2.0)),
                        p.chord, p.twist, p.sweep, p.zhigh))
  }

  /** `Propeller(D_m, chord_dist_m, twist_dist_deg, sweep_dist_m, zhigh_dist_m,
      radial_dist_m, n_sections)`: decides the input shape once, then runs
      the matching branch. A None station argument reaches the shared branch
      in the source, where `np.min(None)` and `np.max(None)` return None
      without raising; `parametrize` then fails on a missing or too negative
      section count first (`DoF + 1`, then `np.linspace`'s count check) and
      only otherwise on the missing stations. */
  function Construct(diameter: real, dist: Distributions, arg: StationArg, sections: Option<int>): (r: Result<Propeller, Error>)
    ensures arg.NoStationArg? && sections.None? ==> r == Failure(MissingSectionCount)
    ensures arg.NoStationArg? && sections.Some? && sections.value < -1 ==> r == Failure(NegativeSampleCount)
    ensures arg.NoStationArg? && sections.Some? && sections.value >= -1 ==> r == Failure(MissingStations)
    ensures arg.StationList? && |arg.members| != 5 ==> r == Failure(InvalidStationShape)
    ensures arg.StationList? && |arg.members| == 5 ==>
              r == ConstructFromList(diameter, dist, Stations(arg.members[0], arg.members[1], arg.members[2], arg.members[3], arg.members[4]), sections)
    ensures arg.StationArray? ==> r == ConstructShared(diameter, dist, arg.values, sections)
    ensures r.Success? ==> Pack(r.value.stations) == arg || arg == StationArray(r.value.stations.chord)
  {
    if arg.NoStationArg? && sections.None? then Failure(MissingSectionCount)
    else if arg.NoStationArg? && sections.value < -1 then Failure(NegativeSampleCount)
    else
      var shape :- Dispatch(arg);
      match shape
      case PerDistribution(st) => ConstructFromList(diameter, dist, st, sections)
      case Shared(v) => ConstructShared(diameter, dist, v, sections)
  }
}

=== FILE: propeller_properties.dfy ===
/** Properties that relate several calls of the propeller model: what the
    resampled arrays mean at the native stations, the normalised stations of
    each input shape, the shared array against five copies of it, the unused
    thickness stations, and a worked example. */
module PropellerProperties {
  import opened Wrappers
  import opened RealSeqs
  import opened RadialGrid
  import opened Propeller
  import Pchip
  import PchipEnvelope

  /** Interpolation exactness: where a grid station coincides with a native
      station of a supplied distribution, the resampled value there is the
      native value. */
  lemma ExactAtNativeStation(st: Stations, dist: Distributions, hub: real, tip: real, dof: nat, which: Distribution, i: nat, j: nat)
    requires Parametrizable(st, dist) && ValuesFor(dist, which).Some?
    requires i < dof && j < |StationsFor(st, which)|
    requires CommonGrid(hub, tip, dof)[i] == StationsFor(st, which)[j]
    ensures var r := Parametrize(st, dist, hub, tip, "PCHIP", dof);
            && r.Success? && ResampledFor(r.value, which).Some?
            && |ResampledFor(r.value, which).value| == dof
            && |ValuesFor(dist, which).value| == |StationsFor(st, which)|
            && ResampledFor(r.value, which).value[i] == ValuesFor(dist, which).value[j]
  {
    var xs, ys := StationsFor(st, which), ValuesFor(dist, which).value;
    ResampledAligned(st, dist, hub, tip, dof, which);
    var out := ResampledFor(Parametrize(st, dist, hub, tip, "PCHIP", dof).value, which).value;
    ExactOnGrid(out, CommonGrid(hub, tip, dof), xs, ys, i, j);
  }

  /** No overshoot on the grid: a resampled value at a grid station that lies
      between two neighbouring native stations of a supplied distribution
      stays between the two native values. */
  lemma WithinNeighbours(st: Stations, dist: Distributions, hub: real, tip: real, dof: nat, which: Distribution, i: nat, k: nat)
    requires Parametrizable(st, dist) && ValuesFor(dist, which).Some?
    requires i < dof && k + 1 < |StationsFor(st, which)|
    requires StationsFor(st, which)[k] <= CommonGrid(hub, tip, dof)[i] <= StationsFor(st, which)[k + 1]
    ensures var r := Parametrize(st, dist, hub, tip, "PCHIP", dof);
            var c := ValuesFor(dist, which).value;
            && r.Success? && ResampledFor(r.value, which).Some?
            && |ResampledFor(r.value, which).value| == dof
            && |c| == |StationsFor(st, which)|
            && PchipEnvelope.MinOf(c[k], c[k + 1]) <= ResampledFor(r.value, which).value[i] <= PchipEnvelope.MaxOf(c[k], c[k + 1])
  {
    var xs, ys := StationsFor(st, which), ValuesFor(dist, which).value;
    ResampledAligned(st, dist, hub, tip, dof, which);
    var out := ResampledFor(Parametrize(st, dist, hub, tip, "PCHIP", dof).value, which).value;
    WithinOnGrid(out, CommonGrid(hub, tip, dof), xs, ys, i, k);
  }

  /** A supplied distribution comes out of `parametrize` resampled on the
      common grid. */
  lemma ResampledAligned(st: Stations, dist: Distributions, hub: real, tip: real, dof: nat, which: Distribution)
    requires Parametrizable(st, dist) && ValuesFor(dist, which).Some?
    ensures var r := Parametrize(st, dist, hub, tip, "PCHIP", dof);
            && r.Success? && ResampledFor(r.value, which).Some?
            && AlignedWith(ResampledFor(r.value, which).value, CommonGrid(hub, tip, dof), StationsFor(st, which), ValuesFor(dist, which).value)
  {
    var r := Parametrize(st, dist, hub, tip, "PCHIP", dof);
    SelectedAligned(r.value, st, dist, CommonGrid(hub, tip, dof), which);
  }

  /** Selecting one distribution from arrays that are each aligned with the
      grid gives an aligned array. */
  lemma SelectedAligned(p: Parametrized, st: Stations, dist: Distributions, grid: seq<real>, which: Distribution)
    requires ValuesFor(dist, which).Some?
    requires dist.chord.Some? && AlignedWith(p.chord, grid, st.chord, dist.chord.value)
    requires dist.twist.Some? && AlignedWith(p.twist, grid, st.twist, dist.twist.value)
    requires p.sweep.Some? <==> dist.sweep.Some?
    requires p.zhigh.Some? <==> dist.zhigh.Some?
    requires dist.sweep.Some? ==> AlignedWith(p.sweep.value, grid, st.sweep, dist.sweep.value)
    requires dist.zhigh.Some? ==> AlignedWith(p.zhigh.value, grid, st.zhigh, dist.zhigh.value)
    ensures ResampledFor(p, which).Some?
    ensures AlignedWith(ResampledFor(p, which).value, grid, StationsFor(st, which), ValuesFor(dist, which).value)
  {
  }

  /** An aligned array takes the native value at a grid point that is a
      native station. */
  lemma ExactOnGrid(out: seq<real>, grid: seq<real>, xs: seq<real>, ys: seq<real>, i: nat, j: nat)
    requires AlignedWith(out, grid, xs, ys) && i < |grid| && j < |xs| && grid[i] == xs[j]
    ensures out[i] == ys[j]
  {
    Pchip.NodeReproduction(xs, ys, j);
  }

  /** An aligned array stays between the native values around a grid point. */
  lemma WithinOnGrid(out: seq<real>, grid: seq<real>, xs: seq<real>, ys: seq<real>, i: nat, k: nat)
    requires AlignedWith(out, grid, xs, ys) && i < |grid| && k + 1 < |xs| && xs[k] <= grid[i] <= xs[k + 1]
    ensures PchipEnvelope.MinOf(ys[k], ys[k + 1]) <= out[i] <= PchipEnvelope.MaxOf(ys[k], ys[k + 1])
  {
    PchipEnvelope.NoOvershoot(xs, ys, k, grid[i]);
  }

  /** The one-element list `[station_dist]`, which the constructor's
      documentation offers for a station array shared by every distribution,
      is not a list of five and is rejected. */
  lemma SingletonListRejected(diameter: real, dist: Distributions, v: seq<real>, sections: Option<int>)
    ensures Construct(diameter, dist, StationList([v]), sections) == Failure(InvalidStationShape)
  {
  }

  /** Absence propagation: leaving sweep and zhigh out never makes
      `parametrize` fail and yields no sweep and no zhigh. */
  lemma AbsentOptionalsPropagate(st: Stations, chord: seq<real>, twist: seq<real>, hub: real, tip: real, dof: nat)
    requires Pchip.Valid(st.chord, chord) && Pchip.Valid(st.twist, twist)
    ensures var r := Parametrize(st, Distributions(Some(chord), Some(twist), None, None), hub, tip, "PCHIP", dof);
            r.Success? && r.value.sweep.None? && r.value.zhigh.None? && |r.value.chord| == dof
  {
  }

  /** In the list branch every normalised station is the grid station over
      the largest chord station; with non-negative chord stations spanning a
      non-empty range, every `xi` lies in [0, 1). */
  lemma ListXiBelowOne(diameter: real, dist: Distributions, st: Stations, n: nat)
    requires Parametrizable(st, dist)
    requires 0.0 <= Min(st.chord) < Max(st.chord)
    ensures var r := ConstructFromList(diameter, dist, st, Some(n));
            && r.Success?
            && forall i :: 0 <= i < |r.value.xi| ==> 0.0 <= r.value.xi[i] < 1.0
  {
    var r := ConstructFromList(diameter, dist, st, Some(n));
    assert r.Success?;
    GridNormalisedBelowOne(Min(st.chord), Max(st.chord), n, r.value.xi);
  }

  /** The grid from a non-negative hub to a larger tip, divided by the tip,
      lies in [0, 1). */
  lemma GridNormalisedBelowOne(hub: real, tip: real, dof: nat, xi: seq<real>)
    requires 0.0 <= hub < tip
    requires xi == Divide(CommonGrid(hub, tip, dof), tip)
    ensures forall i :: 0 <= i < |xi| ==> 0.0 <= xi[i] < 1.0
  {
    NormalisedBelowOne(CommonGrid(hub, tip, dof), tip);
  }

  /** Dividing stations in [0, top) by a positive `top` lands in [0, 1). */
  lemma NormalisedBelowOne(grid: seq<real>, top: real)
    requires top > 0.0
    requires forall i :: 0 <= i < |grid| ==> 0.0 <= grid[i] < top
    ensures forall i :: 0 <= i < |grid| ==> 0.0 <= Divide(grid, top)[i] < 1.0
  {
    var xi := Divide(grid, top);
    forall i | 0 <= i < |grid|
      ensures 0.0 <= xi[i] < 1.0
    {
      BelowOneFromProduct(xi[i], top, grid[i]);
    }
  }

  lemma BelowOneFromProduct(x: real, top: real, g: real)
    requires top > 0.0 && 0.0 <= g < top && x * top == g
    ensures 0.0 <= x < 1.0
  {
  }

  /** A shared array against a list of five copies of it: both succeed or
      fail together unless the largest station is zero, the grid and every
      resampled distribution agree, but `xi` does not: the shared branch keeps
      the dimensional grid in `xi`, the list branch divides it by the largest
      station. */
  lemma SharedVersusFiveCopies(diameter: real, dist: Distributions, v: seq<real>, sections: Option<int>)
    requires |v| > 0 ==> Max(v) != 0.0
    ensures var shared := Construct(diameter, dist, StationArray(v), sections);
            var listed := Construct(diameter, dist, StationList([v, v, v, v, v]), sections);
            && (shared.Success? <==> listed.Success?)
            && (shared.Success? ==>
                  && shared.value.xi == listed.value.rStationP.value
                  && listed.value.xi == Divide(shared.value.xi, Max(v))
                  && shared.value.chord == listed.value.chord
                  && shared.value.twist == listed.value.twist
                  && shared.value.sweep == listed.value.sweep
                  && shared.value.zhigh == listed.value.zhigh
                  && shared.value.stations == listed.value.stations)
  {
    var listedArg := StationList([v, v, v, v, v]);
    assert Construct(diameter, dist, listedArg, sections) == ConstructFromList(diameter, dist, Stations(v, v, v, v, v), sections);
  }

  /** The thickness stations never influence `parametrize`. */
  lemma ThicknessIgnoredByParametrize(st: Stations, thick: seq<real>, dist: Distributions, hub: real, tip: real, parametrization: string, dof: int)
    ensures Parametrize(st.(thick := thick), dist, hub, tip, parametrization, dof)
         == Parametrize(st, dist, hub, tip, parametrization, dof)
  {
  }

  /** The thickness stations never influence the constructed propeller beyond
      being stored. */
  lemma ThicknessIgnored(diameter: real, dist: Distributions, st: Stations, thick: seq<real>, sections: Option<int>)
    ensures var a := ConstructFromList(diameter, dist, st, sections);
            var b := ConstructFromList(diameter, dist, st.(thick := thick), sections);
            && (a.Success? <==> b.Success?)
            && (a.Success? ==> b.value == a.value.(stations := st.(thick := thick)))
  {
    if |st.chord| > 0 && sections.Some? {
      ThicknessIgnoredByParametrize(st, thick, dist, Min(st.chord), Max(st.chord), "PCHIP", sections.value);
    }
  }

  /** Unpacking a list of five and packing it again gives the list back. */
  lemma DispatchPackRoundTrip(st: Stations)
    ensures Dispatch(Pack(st)) == Success(PerDistribution(st))
  {
  }

  /** The worked example: chord stations 0, 5, 10 m with chord 0.1, 0.2,
      0.15 m and `n_sections = 2` give the grid 0, 5 m, where the resampled
      chord is exactly 0.1, 0.2 m. Twist is given on stations 2, 6, 10 only,
      so its value at the hub is extrapolated, and that is no error. The
      normalised stations are 0 and 0.5. */
  lemma WorkedExample(diameter: real, cs: seq<real>, ts: seq<real>, chord: seq<real>, twist: seq<real>)
    requires cs == [0.0, 5.0, 10.0] && ts == [2.0, 6.0, 10.0]
    requires chord == [0.1, 0.2, 0.15] && twist == [30.0, 20.0, 10.0]
    ensures var r := Construct(diameter, Distributions(Some(chord), Some(twist), None, None), StationList([cs, ts, cs, cs, cs]), Some(2));
            && r.Success?
            && r.value.rStationP == Some([0.0, 5.0])
            && r.value.xi == [0.0, 0.5]
            && r.value.chord == [0.1, 0.2]
            && |r.value.twist| == 2
            && r.value.sweep.None? && r.value.zhigh.None?
  {
    var dist := Distributions(Some(chord), Some(twist), None, None);
    var st := Stations(cs, ts, cs, cs, cs);
    ExampleExtremes(cs);
    var p := ExampleParametrize(st, dist, Min(cs), Max(cs), 2);
    assert StationList([cs, ts, cs, cs, cs]) == Pack(st);
    ListOfFiveUnpacked(diameter, dist, st, Some(2));
    ExampleNormalised();
  }

  /** Constructing from a list of five is the list branch on its members. */
  lemma ListOfFiveUnpacked(diameter: real, dist: Distributions, st: Stations, sections: Option<int>)
    ensures Construct(diameter, dist, Pack(st), sections) == ConstructFromList(diameter, dist, st, sections)
  {
  }

  lemma ExampleExtremes(cs: seq<real>)
    requires cs == [0.0, 5.0, 10.0]
    ensures Min(cs) == 0.0 && Max(cs) == 10.0
  {
  }

  lemma ExampleGrid(hub: real, tip: real, dof: nat)
    requires hub == 0.0 && tip == 10.0 && dof == 2
    ensures CommonGrid(hub, tip, dof) == [0.0, 5.0]
  {
    var grid := CommonGrid(hub, tip, dof);
    assert grid[1] - grid[0] == 5.0;
  }

  lemma ExampleNormalised()
    ensures Divide([0.0, 5.0], 10.0) == [0.0, 0.5]
  {
    var d := Divide([0.0, 5.0], 10.0);
    assert d[0] * 10.0 == 0.0 && d[1] * 10.0 == 5.0;
  }

  lemma ExampleParametrize(st: Stations, dist: Distributions, hub: real, tip: real, dof: int) returns (p: Parametrized)
    requires st.chord == [0.0, 5.0, 10.0] && st.twist == [2.0, 6.0, 10.0]
    requires dist.chord == Some([0.1, 0.2, 0.15]) && dist.twist == Some([30.0, 20.0, 10.0])
    requires dist.sweep.None? && dist.zhigh.None?
    requires hub == 0.0 && tip == 10.0 && dof == 2
    ensures Parametrize(st, dist, hub, tip, "PCHIP", dof) == Success(p)
    ensures p.stations == [0.0, 5.0] && p.chord == [0.1, 0.2] && |p.twist| == 2 && p.sweep.None? && p.zhigh.None?
  {
    ExampleParametrizable(st, dist);
    p := ExampleOnGrid(st, dist, hub, tip, dof);
    ExampleChord(st.chord, dist.chord.value, p.stations, p.chord);
  }

  lemma ExampleOnGrid(st: Stations, dist: Distributions, hub: real, tip: real, dof: int) returns (p: Parametrized)
    requires Parametrizable(st, dist) && dist.sweep.None? && dist.zhigh.None?
    requires hub == 0.0 && tip == 10.0 && dof == 2
    ensures Parametrize(st, dist, hub, tip, "PCHIP", dof) == Success(p)
    ensures p.stations == [0.0, 5.0] && |p.twist| == 2 && p.sweep.None? && p.zhigh.None?
    ensures AlignedWith(p.chord, p.stations, st.chord, dist.chord.value)
  {
    p := Parametrize(st, dist, hub, tip, "PCHIP", dof).value;
    ExampleGrid(hub, tip, dof);
  }

  lemma ExampleChord(xs: seq<real>, ys: seq<real>, grid: seq<real>, out: seq<real>)
    requires xs == [0.0, 5.0, 10.0] && ys == [0.1, 0.2, 0.15] && grid == [0.0, 5.0]
    requires AlignedWith(out, grid, xs, ys)
    ensures out == [0.1, 0.2]
  {
    Pchip.NodeReproduction(xs, ys, 0);
    Pchip.NodeReproduction(xs, ys, 1);
    assert out[0] == Pchip.Evaluate(xs, ys, xs[0]);
    assert out[1] == Pchip.Evaluate(xs, ys, xs[1]);
  }

  lemma ExampleParametrizable(st: Stations, dist: Distributions)
    requires st.chord == [0.0, 5.0, 10.0] && st.twist == [2.0, 6.0, 10.0]
    requires dist.chord == Some([0.1, 0.2, 0.15]) && dist.twist == Some([30.0, 20.0, 10.0])
    requires dist.sweep.None? && dist.zhigh.None?
    ensures Parametrizable(st, dist)
  {
  }

  /** A requested count of zero sections is accepted and yields empty
      arrays; a count of -1 asks `np.delete` to drop from an empty grid. */
  lemma NoSections(st: Stations, dist: Distributions, hub: real, tip: real)
    requires Parametrizable(st, dist)
    ensures var r := Parametrize(st, dist, hub, tip, "PCHIP", 0);
            r.Success? && r.value.stations == [] && r.value.chord == [] && r.value.twist == []
    ensures Parametrize(st, dist, hub, tip, "PCHIP", -1) == Failure(DropFromEmpty)
  {
  }
}

=== FILE: radial_grid.dfy ===
/** The radial grid of `Propeller.parametrize`: `np.linspace` with its default
    closed end point, in exact real arithmetic, and the common grid obtained by
    dropping the tip point again. */
module RadialGrid {
  import opened RealSeqs

  /** `np.linspace(start, stop, num)`: `num` points, evenly spaced, the first
      at `start` and (for two or more points) the last at `stop`; one point
      is just `[start]` and zero points the empty array. */
  function Linspace(start: real, stop: real, num: nat): (r: seq<real>)
    ensures |r| == num
    ensures num >= 1 ==> r[0] == start
    ensures num >= 2 ==> r[num - 1] == stop
    ensures num >= 2 ==> forall i :: 0 <= i < num - 1 ==>
              r[i + 1] - r[i] == (stop - start) / ((num - 1) as real)
  {
    if num <= 1 then seq(num, i requires 0 <= i < num => start)
    else
      var step := (stop - start) / ((num - 1) as real);
      var r := seq(num, i requires 0 <= i < num =>
                     if i == num - 1 then stop else start + (i as real) * step);
      assert r[num - 1] - r[num - 2] == step by {
        assert step * ((num - 1) as real) == stop - start;
      }
      r
  }

  /** A multiple of a non-negative step stays below the full span while the
      multiplier stays below the step count. */
  lemma StepBelowSpan(i: nat, n: nat, step: real)
    requires i < n
    requires step > 0.0
    ensures 0.0 <= (i as real) * step < (n as real) * step
  {
  }

  /** The common radial grid of `parametrize`: `dof + 1` evenly spaced points
      from hub to tip with the tip point removed, so `dof` points covering the
      half-open span [hub, tip). */
  function CommonGrid(hub: real, tip: real, dof: nat): (r: seq<real>)
    ensures |r| == dof
    ensures dof >= 1 ==> r[0] == hub
    ensures forall i :: 0 <= i < dof - 1 ==> r[i + 1] - r[i] == (tip - hub) / (dof as real)
    ensures hub < tip ==> forall i :: 0 <= i < dof ==> hub <= r[i] < tip
    ensures hub < tip ==> forall i, j :: 0 <= i < j < dof ==> r[i] < r[j]
  {
    var r := DropLast(Linspace(hub, tip, dof + 1));
    GridShape(hub, tip, dof);
    r
  }

  /** Point `i` of the common grid sits `i` steps of `(tip - hub)/dof` past
      the hub. */
  lemma CommonGridPosition(hub: real, tip: real, dof: nat, i: nat)
    requires i < dof
    ensures CommonGrid(hub, tip, dof)[i] == hub + (i as real) * ((tip - hub) / (dof as real))
  {
    GridPoint(hub, tip, dof, i);
  }

  /** The facts `CommonGrid` promises, proved of the dropped linspace. */
  lemma GridShape(hub: real, tip: real, dof: nat)
    ensures var r := DropLast(Linspace(hub, tip, dof + 1));
      && (forall i :: 0 <= i < dof ==> r[i] == hub + (i as real) * ((tip - hub) / (dof as real)))
      && (hub < tip ==> forall i :: 0 <= i < dof ==> hub <= r[i] < tip)
      && (hub < tip ==> forall i, j :: 0 <= i < j < dof ==> r[i] < r[j])
  {
    var r := DropLast(Linspace(hub, tip, dof + 1));
    forall i | 0 <= i < dof
      ensures r[i] == hub + (i as real) * ((tip - hub) / (dof as real))
    {
      GridPoint(hub, tip, dof, i);
    }
    if hub < tip {
      forall i | 0 <= i < dof
        ensures hub <= r[i] < tip
      {
        GridPointInSpan(hub, tip, dof, i);
      }
      forall i, j | 0 <= i < j < dof
        ensures r[i] < r[j]
      {
        GridPointsOrdered(hub, tip, dof, i, j);
      }
    }
  }

  lemma GridPointInSpan(hub: real, tip: real, dof: nat, i: nat)
    requires hub < tip && i < dof
    ensures hub <= DropLast(Linspace(hub, tip, dof + 1))[i] < tip
  {
    GridPoint(hub, tip, dof, i);
    StepsInSpan(hub, tip, dof, i, DropLast(Linspace(hub, tip, dof + 1))[i]);
  }

  /** A point fewer than `n` steps of `(tip - hub)/n` past the hub lies in
      `[hub, tip)`. */
  lemma StepsInSpan(hub: real, tip: real, n: nat, i: nat, p: real)
    requires hub < tip && i < n
    requires p == hub + (i as real) * ((tip - hub) / (n as real))
    ensures hub <= p < tip
  {
    var step := (tip - hub) / (n as real);
    PositiveStep(hub, tip, n);
    StepBelowSpan(i, n, step);
    assert (n as real) * step == tip - hub;
  }

  lemma GridPointsOrdered(hub: real, tip: real, dof: nat, i: nat, j: nat)
    requires hub < tip && i < j < dof
    ensures DropLast(Linspace(hub, tip, dof + 1))[i] < DropLast(Linspace(hub, tip, dof + 1))[j]
  {
    var step := (tip - hub) / (dof as real);
    PositiveStep(hub, tip, dof);
    GridPoint(hub, tip, dof, i);
    GridPoint(hub, tip, dof, j);
    StepBelowSpan(i, j, step);
  }

  lemma PositiveStep(hub: real, tip: real, dof: nat)
    requires hub < tip && dof >= 1
    ensures (tip - hub) / (dof as real) > 0.0
    ensures (tip - hub) / (dof as real) * (dof as real) == tip - hub
  {
  }

  /** Point `i` of the common grid is `i` steps past the hub. */
  lemma GridPoint(hub: real, tip: real, dof: nat, i: nat)
    requires i < dof
    ensures DropLast(Linspace(hub, tip, dof + 1))[i] == hub + (i as real) * ((tip - hub) / (dof as real))
  {
    var full := Linspace(hub, tip, dof + 1);
    PositionFromSpacing(full, hub, (tip - hub) / (dof as real), i);
  }

  /** In an evenly spaced sequence each point sits a whole number of steps
      past the first. */
  lemma {:induction false} PositionFromSpacing(s: seq<real>, start: real, step: real, i: nat)
    requires |s| > 0 && s[0] == start
    requires forall k :: 0 <= k < |s| - 1 ==> s[k + 1] - s[k] == step
    requires i < |s|
    ensures s[i] == start + (i as real) * step
  {
    if i > 0 {
      PositionFromSpacing(s, start, step, i - 1);
      assert s[i] - s[i - 1] == step;
    }
  }
}

=== FILE: realseqs.dfy ===
/** Small facts about finite sequences of reals: the extrema `np.min` / `np.max`
    compute, `np.delete(a, -1)`, and element-wise scaling. */
module RealSeqs {

  /** The least element, as `np.min` returns it. */
  function Min(s: seq<real>): (r: real)
    requires |s| > 0
    ensures r in s
    ensures forall i :: 0 <= i < |s| ==> r <= s[i]
  {
    if |s| == 1 then s[0]
    else
      var rest := Min(s[1..]);
      if s[0] <= rest then s[0] else rest
  }

  /** The greatest element, as `np.max` returns it. */
  function Max(s: seq<real>): (r: real)
    requires |s| > 0
    ensures r in s
    ensures forall i :: 0 <= i < |s| ==> s[i] <= r
  {
    if |s| == 1 then s[0]
    else
      var rest := Max(s[1..]);
      if s[0] >= rest then s[0] else rest
  }

  /** `np.delete(a, -1)`: every element but the last. NumPy raises on an empty
      array, so the caller must rule that case out (or model the error). */
  function DropLast(s: seq<real>): (r: seq<real>)
    requires |s| > 0
    ensures |r| == |s| - 1
    ensures forall i :: 0 <= i < |r| ==> r[i] == s[i]
    ensures r + [s[|s| - 1]] == s
  {
    s[..|s| - 1]
  }

  /** Element-wise `a / c`, as NumPy broadcasts a scalar divisor. */
  function Divide(s: seq<real>, c: real): (r: seq<real>)
    requires c != 0.0
    ensures |r| == |s|
    ensures forall i :: 0 <= i < |s| ==> r[i] * c == s[i]
  {
    seq(|s|, i requires 0 <= i < |s| => s[i] / c)
  }

  /** Element-wise `a * c`, as NumPy broadcasts a scalar factor. */
  function Scale(s: seq<real>, c: real): (r: seq<real>)
    ensures |r| == |s|
    ensures forall i :: 0 <= i < |s| ==> r[i] == s[i] * c
    ensures c != 0.0 ==> Divide(r, c) == s
  {
    var r := seq(|s|, i requires 0 <= i < |s| => s[i] * c);
    assert c != 0.0 ==> forall i :: 0 <= i < |s| ==> Divide(r, c)[i] == s[i];
    r
  }
}

=== FILE: wrappers.dfy ===
/** Failure-compatible datatypes used throughout the model: `Option` stands for
    Python's `None`-or-value, `Result` for a computation that either returns or
    raises. Both work with Dafny's `:-` operator. */
module Wrappers {

  datatype Option<+T> = None | Some(value: T)

  datatype Result<+T, +E> = Success(value: T) | Failure(error: E) {

    predicate IsFailure() {
      Failure?
    }

    function PropagateFailure<U>(): Result<U, E>
      requires Failure?
    {
      Failure(error)
    }

    function Extract(): T
      requires Success?
    {
      value
    }
  }
}
